=== FILE: README.md ===
# FPGA region provisioning: a Dafny model

This project models the core of the FPGA virtualisation driver in
`nova/virt/fpgavirt`. A virtual machine is backed by a reconfigurable FPGA
region that a remote subagent manages. The driver talks to that subagent over
a small line-oriented TCP protocol:

- `PRG` programs a region with a bitstream.
- `REL` releases a region.
- The region is identified by the MAC address of the VM's first interface.

Four modules, one per concern:

- `Wrappers`: `Option` and `Result`.
- `Text`: Python 2's `str.split` and `str.join` on strings, and the CRLF line
  separator.
- `Decimal`: `str()` of a natural number, a strict decimal parser, and
  CPython 2's `int()` on a string. `int()` reads the port, so it has to
  accept surrounding whitespace and a sign.
- `Protocol`: the client `pr_virt_tcp`, which covers:
  - splitting the subagent address into host and port;
  - the request frame, with the bitstream streamed in 1024-byte reads;
  - a single 512-byte read of the reply;
  - classifying the reply into an outcome: `("ACK", "SUCCESS")`, some other
    pair of tokens, or the `-1` sentinel with one of three fixed messages.
- `Controller`: the `PR_VIRT` operations, which are:
  - binding interfaces to MAC addresses;
  - getting and releasing a region, with the translation of client outcomes
    and exceptions into the driver's errors;
  - the bootloader hooks and the inert node hooks;
  - idempotent image caching.

The socket is not modelled as a real socket. It is a value, `Protocol.Peer`,
that says three things:

- whether the connection is accepted;
- which `send` call, if any, times out or fails;
- what the single `recv` sees.

One call is `Protocol.Exchange`. It returns the trace of socket events
(`Connect`, `Send`, `Receive`) and either a returned outcome or a raised
error. The bitstream file is passed as its content.

The receiver side is not part of the repository. `Protocol.ParseRequest` is an
independent definition of how a subagent reads a frame. It serves as the
partner of the framing code.

Some details of the client that the model keeps exactly:

- `pr_virt_tcp` never closes its socket.
- An address without `:` raises `IndexError` at `pr_virt_tcp.py` line 20,
  outside the guarded block.
- The empty-reply message is exactly `"not receive response before closing
  connection"`.
- The connection error reads `TCP CONNETION DIED`, spelled as in the code.

## Model

| member | source | states |
|---|---|---|
| Text.Split | nova/virt/fpgavirt/pr_virt_tcp.py:64 | `str.split(sep)`: at least one field; the fields joined by the separator give back the input; no field contains the separator |
| Text.SplitJoin | nova/virt/fpgavirt/pr_virt_tcp.py:64 | splitting is the inverse of joining, for fields without the separator and a separator whose first character does not recur in it (CRLF and `:`) |
| Text.SplitSingle | nova/virt/fpgavirt/pr_virt_tcp.py:18-20 | a split gives one field exactly when the separator does not occur, which is when indexing component 1 fails |
| Decimal.NatToString | nova/virt/fpgavirt/pr_virt_tcp.py:33 | `str(size)` is a non-empty run of decimal digits with no leading zero |
| Decimal.ParseNatToString | nova/virt/fpgavirt/pr_virt_tcp.py:33-35 | the size line reads back as the size: parsing `str(n)` gives `n` |
| Decimal.NatToStringInjective | nova/virt/fpgavirt/pr_virt.py:84-85 | different interface numbers have different decimal spellings |
| Decimal.PyIntOfDecimal | nova/virt/fpgavirt/pr_virt_tcp.py:23 | `int()` applied to `str(n)` gives `n` back |
| Protocol.Chunks | nova/virt/fpgavirt/pr_virt_tcp.py:41-45 | the payload writes concatenate to exactly the file |
| Protocol.ChunkBounds | nova/virt/fpgavirt/pr_virt_tcp.py:42-45 | each payload write is 1 to 1024 bytes, and all but the last are full |
| Protocol.StreamFile | nova/virt/fpgavirt/pr_virt_tcp.py:41-45 | the read-1024 loop that stops at an empty read sends the same chunks as `Chunks`, and so the whole file, each chunk 1 to 1024 bytes |
| Protocol.FrameLayout | nova/virt/fpgavirt/pr_virt_tcp.py:31-47 | the bytes of a request: `PRG` sends command, decimal file size, MAC, each CRLF-terminated, then the raw file with no trailer; `REL` sends command and MAC lines; any other command only its own line |
| Protocol.FrameRoundTrip | nova/virt/fpgavirt/pr_virt_tcp.py:31-47 | a receiver recovers exactly the command, MAC and file from the frame, because the announced size matches the payload, provided command and MAC contain no CRLF |
| Protocol.ClassifyReply | nova/virt/fpgavirt/pr_virt_tcp.py:64-71 | a reply `result CRLF message CRLF trailer`, with no CRLF inside the parts, yields `(result, message)`; the trailer is ignored |
| Protocol.ClassifyToken | nova/virt/fpgavirt/pr_virt_tcp.py:64-71 | conversely, a token outcome arises only from a reply of exactly that three-field form, so result and message are CRLF-free |
| Protocol.ClassifySentinel | nova/virt/fpgavirt/pr_virt_tcp.py:58-68 | a sentinel from a reply reports "no response" exactly when the reply is empty, otherwise the format error, never the timeout |
| Protocol.AcknowledgementWithTrailer | nova/virt/fpgavirt/pr_virt_tcp.py:64-71 | `ACK CRLF SUCCESS CRLF`, followed by any bytes without a carriage return, reads as `("ACK", "SUCCESS")` |
| Protocol.Endpoint | nova/virt/fpgavirt/pr_virt_tcp.py:18-26 | an address without `:` raises `IndexError`, and only then; any other failure is `TCP CONNETION DIED`; a success names the text before the first colon and a port in 0..65535 (which port: `EndpointOf`) |
| Protocol.EndpointOf | nova/virt/fpgavirt/pr_virt_tcp.py:18-23 | for any second component `p` (such as `80`, ` 80`, `+80` or `080`) that `int()` reads as a valid port `v`, `host:p`, optionally followed by more `:`-separated components, resolves to exactly `host` and `v` |
| Protocol.EndpointRejectsPort | nova/virt/fpgavirt/pr_virt_tcp.py:18-26 | a second component that `int()` rejects, or reads as a number outside 0..65535, ends in `TCP CONNETION DIED`, not `IndexError` |
| Protocol.ExchangeWire | nova/virt/fpgavirt/pr_virt_tcp.py:29-58 | the bytes written are always a prefix of the frame; when the reply is read, the read is the single last event and the events before it wrote exactly the frame; a reply token implies a read happened; nothing is written unless connected |
| Protocol.ExchangeConnects | nova/virt/fpgavirt/pr_virt_tcp.py:16-23 | the first socket event for `host:port` is the connection to that host and port |
| Protocol.SendTimeoutSkipsReceive | nova/virt/fpgavirt/pr_virt_tcp.py:51-56 | a timeout on the k-th send returns the "socket timeout" sentinel without reading, after exactly the first k segments were written |
| Protocol.ExchangeRefused | nova/virt/fpgavirt/pr_virt_tcp.py:22-26 | a refused connection raises `TCP CONNETION DIED` after the connection attempt alone, with nothing written or read |
| Protocol.SendErrorRaises | nova/virt/fpgavirt/pr_virt_tcp.py:29-53 | a non-timeout socket error on the k-th send is not caught: it raises, after exactly the first k segments, without a read |
| Protocol.ReplyProblemsAreReturned | nova/virt/fpgavirt/pr_virt_tcp.py:56-75 | once the frame is written the reply is read; it raises exactly on a non-timeout socket error; a timeout or received bytes become a returned outcome, classified from at most 512 bytes |
| Controller.FindMacAddresses | nova/virt/fpgavirt/pr_virt.py:80-89 | one binding per network entry, in order, the k-th named `eth<k>` with the k-th mapping's `mac`; a `KeyError` exactly when some mapping has no `mac` |
| Controller.BindingNamesDistinct | nova/virt/fpgavirt/pr_virt.py:82-88 | interface names never repeat |
| Controller.GetRegionVerdict | nova/virt/fpgavirt/pr_virt.py:91-115 | `_getregion` returns normally exactly when the client returned `("ACK", "SUCCESS")`; it raises `FPGA Get Region Failed!` exactly when the client returned anything else, sentinels included; every other case raises `TCP CONNETION DIED` |
| Controller.ReleaseRegionVerdict | nova/virt/fpgavirt/pr_virt.py:117-138 | the same three-way verdict for `_releaseregion`, whose refusal is `FPGA region release error!` |
| Controller.RegionWithoutBindings | nova/virt/fpgavirt/pr_virt.py:101-107 | with no interfaces, no socket event happens and the call raises `TCP CONNETION DIED` |
| Controller.RegionFirstMacOnly | nova/virt/fpgavirt/pr_virt.py:101-102 | only the first binding matters: replacing the later ones changes nothing |
| Controller.RefusalAndReadTimeout | nova/virt/fpgavirt/pr_virt.py:102-113 | a refused connection ends the region call in `TCP CONNETION DIED` after the connect event alone; a read timeout instead ends it in the call's own refusal |
| Controller.RegionSuccessOnWire | nova/virt/fpgavirt/pr_virt.py:102-110 | a successful region call wrote the whole frame for the first MAC, read the reply, and the reply began `ACK CRLF SUCCESS CRLF` |
| Controller.RegionSucceeds | nova/virt/fpgavirt/pr_virt.py:109-110 | against a subagent that accepts, takes every write and acknowledges, the call succeeds |
| Controller.BootloaderUsesFirstEntry | nova/virt/fpgavirt/pr_virt.py:140-152 | activating programs, and deactivating releases, the region of the first network entry's MAC (`eth0`) and no other |
| Controller.BootloaderMissingMac | nova/virt/fpgavirt/pr_virt.py:144-151 | a network entry without `mac` raises `KeyError` from both hooks, uncaught, before any socket event |
| Controller.NodeHooksInert | nova/virt/fpgavirt/pr_virt.py:156-160 | `activate_node` and `deactivate_node` cause no socket event and never raise |
| Controller.CacheImage | nova/virt/fpgavirt/pr_virt.py:44-48 | the image store is called exactly when the target is absent; the call raises the store's error exactly when that fetch fails, and then no path changes; on success the target exists; no other path changes |
| Controller.CacheImageTwice | nova/virt/fpgavirt/pr_virt.py:44-48 | caching is idempotent: after a successful call, a second call fetches nothing and changes nothing |

## Left out

- Closing the socket: the code never closes it, so no close event exists.
- Real socket behaviour: it is replaced by `Peer`. The 10-second timeout set after connect (`settimeout(10)`) is modelled only as a possible timeout on a send or on the read; connect itself is not time-bounded. DNS resolution is not modelled. A host that cannot be reached is modelled as a peer that does not accept.
- Partial writes: `send` is assumed to write all its bytes. Its return value is ignored in the code.
- Short reads: `recv(512)` is modelled as returning the first `min(512, available)` bytes the subagent wrote. A real read may return fewer.
- The bitstream file: it is passed as its content. A missing or unreadable file (`OSError`/`IOError` from `getsize` or `open`) is not modelled.
- `print` and logging: they have no effect on the protocol.
- `define_vars`, `create_image`, `destroy_images`, `get_baremetal_nodes`: path construction, directory creation and removal. `create_image` is modelled only through `_cache_image_x`.
- The lookups in `activate_bootloader`: `var['image_path']`, `var['network_info']` and the instance-type lookup are not modelled, because they are dictionary and database access with no bearing on the region protocol.
- Controller.CacheImage: the existence check and the fetch are treated as one atomic step. A file created concurrently between them is not modelled.
- The indentation of `nova/virt/fpgavirt/pr_virt.py` line 107: the `raise` in `_getregion`'s `except` block is indented with a tab and eight spaces, which Python 2 reads as column 16, after lines at column 12. As written, the module would be rejected with an unexpected-indent error and never imported. The model takes the evidently intended reading, in which the `raise` is the last statement of the `except` block, as it is at line 131 in `_releaseregion`.

=== FILE: controller.dfy ===
/** The region lifecycle controller, `PR_VIRT`: it derives interface bindings
    from a VM's network info, drives the region client to program a region
    when the VM boots and to release it when the VM stops, and turns client
    outcomes and exceptions into the errors its caller sees. */
module Controller {
  import opened Wrappers
  import opened Text
  import opened Decimal
  import opened Protocol

  /** The exceptions the controller's callers see. */
  datatype DriverError =
    | TcpConnectionDied    // NovaException('TCP CONNETION DIED')
    | GetRegionFailed      // NovaException('FPGA Get Region Failed!')
    | RegionReleaseFailed  // NovaException('FPGA region release error!')
    | MacKeyMissing        // KeyError: a network mapping without 'mac'
    | ImageFetchFailed     // whatever the image store raises, unchanged

  datatype Status = Done | Fails(failure: DriverError)

  /** One controller call: the socket events it caused and how it ended. */
  datatype Step = Step(trace: seq<Event>, status: Status)

  /** One `(network_ref, mapping)` pair of a VM's network info; only the
      mapping is read. */
  datatype NetworkEntry = NetworkEntry(mapping: map<string, string>)

  /** The `{'name': ..., 'hwaddress': ...}` record built per interface. */
  datatype Binding = Binding(name: string, hwaddress: string)

  const MacKey: string := "mac"
  const AddressKey: string := "pm_address"

  function InterfaceName(i: nat): string
  {
    "eth" + NatToString(i)
  }

  /** The bindings of `networkInfo` when its first entry is interface number
      `first`; a mapping without `mac` raises `KeyError`. */
  function BindFrom(networkInfo: seq<NetworkEntry>, first: nat): (r: Result<seq<Binding>, DriverError>)
    ensures r.Success? <==> forall k :: 0 <= k < |networkInfo| ==> MacKey in networkInfo[k].mapping
    ensures r.Failure? ==> r.error == MacKeyMissing
    ensures r.Success? ==> |r.value| == |networkInfo|
    ensures r.Success? ==> forall k :: 0 <= k < |r.value| ==>
      r.value[k] == Binding(InterfaceName(first + k), networkInfo[k].mapping[MacKey])
    decreases |networkInfo|
  {
    if |networkInfo| == 0 then Success([])
    else if MacKey !in networkInfo[0].mapping then Failure(MacKeyMissing)
    else
      match BindFrom(networkInfo[1..], first + 1)
      case Failure(e) => Failure(e)
      case Success(rest) =>
        Success([Binding(InterfaceName(first), networkInfo[0].mapping[MacKey])] + rest)
  }

  /** `_find_MAC_Addresses`: one binding per network entry, in order, the
      k-th named `eth<k>` and carrying the k-th mapping's MAC address. */
  function FindMacAddresses(networkInfo: seq<NetworkEntry>): (r: Result<seq<Binding>, DriverError>)
    ensures r.Success? <==> forall k :: 0 <= k < |networkInfo| ==> MacKey in networkInfo[k].mapping
    ensures r.Failure? ==> r.error == MacKeyMissing
    ensures r.Success? ==> |r.value| == |networkInfo|
    ensures r.Success? ==> forall k :: 0 <= k < |r.value| ==>
      r.value[k] == Binding(InterfaceName(k), networkInfo[k].mapping[MacKey])
  {
    BindFrom(networkInfo, 0)
  }

  /** Interface names never repeat. */
  lemma BindingNamesDistinct(networkInfo: seq<NetworkEntry>, i: nat, j: nat)
    requires FindMacAddresses(networkInfo).Success?
    requires i < j < |networkInfo|
    ensures FindMacAddresses(networkInfo).value[i].name != FindMacAddresses(networkInfo).value[j].name
  {
    if InterfaceName(i) == InterfaceName(j) {
      assert InterfaceName(i)[3..] == NatToString(i);
      assert InterfaceName(j)[3..] == NatToString(j);
      NatToStringInjective(i, j);
    }
  }

  /** The common shape of `_getregion` and `_releaseregion`: take the first
      binding's MAC and the node's `pm_address`, run the client, and accept
      only `("ACK", "SUCCESS")`. Anything raised inside, including the missing
      first binding, becomes `TCP CONNETION DIED`; any other outcome becomes
      the call's own refusal. */
  function RegionCall(cmd: string, image: string, node: map<string, string>, nets: seq<Binding>,
                      peer: Peer, refusal: DriverError): Step
  {
    if |nets| == 0 || AddressKey !in node then Step([], Fails(TcpConnectionDied))
    else
      var run := Exchange(cmd, nets[0].hwaddress, node[AddressKey], image, peer);
      match run.result
      case Raised(_) => Step(run.trace, Fails(TcpConnectionDied))
      case Returned(outcome) =>
        Step(run.trace, if outcome == Acknowledged then Done else Fails(refusal))
  }

  /** `_getregion(image_path, node, nets)`, with `image` the file's content. */
  function GetRegion(image: string, node: map<string, string>, nets: seq<Binding>, peer: Peer): Step
  {
    RegionCall("PRG", image, node, nets, peer, GetRegionFailed)
  }

  /** `_releaseregion(node, nets)`; no file is involved. */
  function ReleaseRegion(node: map<string, string>, nets: seq<Binding>, peer: Peer): Step
  {
    RegionCall("REL", "", node, nets, peer, RegionReleaseFailed)
  }

  /** The client run a region call makes, when it makes one. */
  function ClientCall(cmd: string, image: string, node: map<string, string>, nets: seq<Binding>, peer: Peer): ClientRun
    requires |nets| > 0 && AddressKey in node
  {
    Exchange(cmd, nets[0].hwaddress, node[AddressKey], image, peer)
  }

  /** `_getregion` returns normally exactly when the client returned
      `("ACK", "SUCCESS")`; it raises `FPGA Get Region Failed!` exactly when
      the client returned anything else, the `-1` sentinels included; in every
      other case it raises `TCP CONNETION DIED`. */
  lemma GetRegionVerdict(image: string, node: map<string, string>, nets: seq<Binding>, peer: Peer)
    ensures GetRegion(image, node, nets, peer).status == Done <==>
      |nets| > 0 && AddressKey in node &&
      ClientCall("PRG", image, node, nets, peer).result == Returned(Acknowledged)
    ensures GetRegion(image, node, nets, peer).status == Fails(GetRegionFailed) <==>
      |nets| > 0 && AddressKey in node &&
      ClientCall("PRG", image, node, nets, peer).result.Returned? &&
      ClientCall("PRG", image, node, nets, peer).result.outcome != Acknowledged
    ensures GetRegion(image, node, nets, peer).status in
      {Done, Fails(GetRegionFailed), Fails(TcpConnectionDied)}
  {
  }

  /** `_releaseregion` gives the same three-way verdict, its refusal being
      `FPGA region release error!`. */
  lemma ReleaseRegionVerdict(node: map<string, string>, nets: seq<Binding>, peer: Peer)
    ensures ReleaseRegion(node, nets, peer).status == Done <==>
      |nets| > 0 && AddressKey in node &&
      ClientCall("REL", "", node, nets, peer).result == Returned(Acknowledged)
    ensures ReleaseRegion(node, nets, peer).status == Fails(RegionReleaseFailed) <==>
      |nets| > 0 && AddressKey in node &&
      ClientCall("REL", "", node, nets, peer).result.Returned? &&
      ClientCall("REL", "", node, nets, peer).result.outcome != Acknowledged
    ensures ReleaseRegion(node, nets, peer).status in
      {Done, Fails(RegionReleaseFailed), Fails(TcpConnectionDied)}
  {
  }

  /** Without a first binding no connection is attempted. */
  lemma RegionWithoutBindings(cmd: string, image: string, node: map<string, string>, peer: Peer, refusal: DriverError)
    ensures RegionCall(cmd, image, node, [], peer, refusal) == Step([], Fails(TcpConnectionDied))
  {
  }

  /** Only the first binding reaches the protocol: bindings after it change
      nothing, whatever they hold. */
  lemma RegionFirstMacOnly(cmd: string, image: string, node: map<string, string>, nets: seq<Binding>,
                           others: seq<Binding>, peer: Peer, refusal: DriverError)
    requires |nets| > 0
    ensures RegionCall(cmd, image, node, nets, peer, refusal) ==
      RegionCall(cmd, image, node, [nets[0]] + others, peer, refusal)
  {
  }

  /** A refused connection and a read timeout stay distinguishable: the
      client raises on the first, which the region call reports as
      `TCP CONNETION DIED`, and returns the `-1` sentinel on the second, which
      the region call reports as its own refusal. */
  lemma RefusalAndReadTimeout(cmd: string, image: string, node: map<string, string>, nets: seq<Binding>,
                              peer: Peer, refusal: DriverError)
    requires |nets| > 0 && AddressKey in node && Endpoint(node[AddressKey]).Success?
    ensures !peer.accepts ==>
      RegionCall(cmd, image, node, nets, peer, refusal) ==
        Step([Connect(Endpoint(node[AddressKey]).value.0, Endpoint(node[AddressKey]).value.1)],
             Fails(TcpConnectionDied))
    ensures peer.accepts && peer.sendFault == NoFault && peer.reply == ReplyTimeout ==>
      RegionCall(cmd, image, node, nets, peer, refusal).status == Fails(refusal)
  {
    if !peer.accepts {
      ExchangeRefused(cmd, nets[0].hwaddress, node[AddressKey], image, peer);
    } else if peer.sendFault == NoFault && peer.reply == ReplyTimeout {
      ReplyProblemsAreReturned(cmd, nets[0].hwaddress, node[AddressKey], image, peer);
    }
  }

  /** A successful region call wrote the whole request frame for the first
      binding's MAC and read a reply that begins `ACK CRLF SUCCESS CRLF`,
      followed by at most a CRLF-free tail. */
  lemma RegionSuccessOnWire(cmd: string, image: string, node: map<string, string>, nets: seq<Binding>,
                            peer: Peer, refusal: DriverError)
    requires RegionCall(cmd, image, node, nets, peer, refusal).status == Done
    ensures |nets| > 0 && AddressKey in node
    ensures Receive in RegionCall(cmd, image, node, nets, peer, refusal).trace
    ensures WireBytes(RegionCall(cmd, image, node, nets, peer, refusal).trace) ==
      Frame(cmd, nets[0].hwaddress, image)
    ensures peer.reply.Available?
    ensures exists tail ::
      && !Contains(tail, CRLF)
      && peer.reply.bytes[..MinNat(ReplyLimit, |peer.reply.bytes|)] == "ACK" + CRLF + "SUCCESS" + CRLF + tail
  {
    var run := ClientCall(cmd, image, node, nets, peer);
    ExchangeWire(cmd, nets[0].hwaddress, node[AddressKey], image, peer);
    assert run.result == Returned(Acknowledged);
    assert Receive in run.trace;
    var address := node[AddressKey];
    var segments := RequestSegments(cmd, nets[0].hwaddress, image);
    assert Endpoint(address).Success? && peer.accepts;
    assert Completed(|segments|, peer.sendFault) == |segments|;
    assert run.result == AwaitReply(peer.reply);
    assert peer.reply.Available?;
    var response := peer.reply.bytes[..MinNat(ReplyLimit, |peer.reply.bytes|)];
    assert Classify(response) == Acknowledged;
    ClassifyToken(response);
  }

  /** A region call succeeds against a subagent that accepts the connection,
      takes every write, and answers `ACK CRLF SUCCESS CRLF` followed by any
      bytes without a carriage return, within the 512 bytes read. */
  lemma RegionSucceeds(cmd: string, image: string, host: string, port: nat, nets: seq<Binding>,
                       tail: string, refusal: DriverError)
    requires |nets| > 0 && !Contains(host, ":") && port <= PortLimit
    requires forall k :: 0 <= k < |tail| ==> tail[k] != '\r'
    requires |"ACK\r\nSUCCESS\r\n" + tail| <= ReplyLimit
    ensures RegionCall(cmd, image, map[AddressKey := host + ":" + NatToString(port)], nets,
                       Peer(true, NoFault, Available("ACK\r\nSUCCESS\r\n" + tail)), refusal).status == Done
  {
    var address := host + ":" + NatToString(port);
    var reply := "ACK\r\nSUCCESS\r\n" + tail;
    var peer := Peer(true, NoFault, Available(reply));
    EndpointOfDecimal(host, port, "");
    assert address + "" == address;
    assert reply[..MinNat(ReplyLimit, |reply|)] == reply;
    AcknowledgementWithTrailer(tail);
    ReplyProblemsAreReturned(cmd, nets[0].hwaddress, address, image, peer);
  }

  /** `activate_bootloader`: bind the interfaces, then program the region of
      the first one with the staged image. A missing `mac` key raises before
      the guarded region call and is not converted. */
  function ActivateBootloader(image: string, networkInfo: seq<NetworkEntry>, node: map<string, string>,
                              peer: Peer): Step
  {
    match FindMacAddresses(networkInfo)
    case Failure(e) => Step([], Fails(e))
    case Success(nets) => GetRegion(image, node, nets, peer)
  }

  /** `deactivate_bootloader`: bind the interfaces, then release the region of
      the first one. */
  function DeactivateBootloader(networkInfo: seq<NetworkEntry>, node: map<string, string>, peer: Peer): Step
  {
    match FindMacAddresses(networkInfo)
    case Failure(e) => Step([], Fails(e))
    case Success(nets) => ReleaseRegion(node, nets, peer)
  }

  /** The bootloader hooks program or release the region named by the first
      network entry's MAC address and no other: with a well-formed network
      info the result is that of the region call on a single binding. */
  lemma BootloaderUsesFirstEntry(image: string, networkInfo: seq<NetworkEntry>, node: map<string, string>,
                                 peer: Peer)
    requires |networkInfo| > 0
    requires forall k :: 0 <= k < |networkInfo| ==> MacKey in networkInfo[k].mapping
    ensures ActivateBootloader(image, networkInfo, node, peer) ==
      GetRegion(image, node, [Binding("eth0", networkInfo[0].mapping[MacKey])], peer)
    ensures DeactivateBootloader(networkInfo, node, peer) ==
      ReleaseRegion(node, [Binding("eth0", networkInfo[0].mapping[MacKey])], peer)
  {
    var nets := FindMacAddresses(networkInfo).value;
    assert NatToString(0) == "0";
    assert nets[0] == Binding("eth0", networkInfo[0].mapping[MacKey]);
    RegionFirstMacOnly("PRG", image, node, nets, [], peer, GetRegionFailed);
    RegionFirstMacOnly("REL", "", node, nets, [], peer, RegionReleaseFailed);
    assert [nets[0]] + [] == [Binding("eth0", networkInfo[0].mapping[MacKey])];
  }

  /** A network entry without `mac` fails both bootloader hooks with the
      `KeyError`, before any socket activity. */
  lemma BootloaderMissingMac(image: string, networkInfo: seq<NetworkEntry>, node: map<string, string>,
                             peer: Peer, k: nat)
    requires k < |networkInfo| && MacKey !in networkInfo[k].mapping
    ensures ActivateBootloader(image, networkInfo, node, peer) == Step([], Fails(MacKeyMissing))
    ensures DeactivateBootloader(networkInfo, node, peer) == Step([], Fails(MacKeyMissing))
  {
  }

  /** `activate_node` and `deactivate_node` have empty bodies. */
  function ActivateNode(): Step
  {
    Step([], Done)
  }

  function DeactivateNode(): Step
  {
    Step([], Done)
  }

  /** The node hooks touch no socket and never raise. */
  lemma NodeHooksInert()
    ensures ActivateNode().trace == [] && ActivateNode().status == Done
    ensures DeactivateNode().trace == [] && DeactivateNode().status == Done
  {
  }

  /** The result of `_cache_image_x`: whether the image store was asked for
      the file, the set of paths that exist afterwards, and how it ended. */
  datatype CacheStep = CacheStep(fetched: bool, files: set<string>, status: Status)

  /** `_cache_image_x(target)` over the set of existing paths: fetch only when
      the target is absent. A fetch that succeeds creates the target; a
      failing one raises its own error. */
  function CacheImage(files: set<string>, target: string, fetchSucceeds: bool): (c: CacheStep)
    ensures c.fetched <==> target !in files
    ensures c.status == Done ==> target in c.files
    ensures c.status.Fails? <==> target !in files && !fetchSucceeds
    ensures c.status.Fails? ==> c.fetched && c.status.failure == ImageFetchFailed && c.files == files
    ensures c.files - {target} == files - {target}
  {
    if target in files then CacheStep(false, files, Done)
    else if fetchSucceeds then CacheStep(true, files + {target}, Done)
    else CacheStep(true, files, Fails(ImageFetchFailed))
  }

  /** Caching twice fetches at most once: after a call that ended normally,
      a second call with the same target fetches nothing and changes no
      path. */
  lemma CacheImageTwice(files: set<string>, target: string, first: bool, second: bool)
    requires CacheImage(files, target, first).status == Done
    ensures !CacheImage(CacheImage(files, target, first).files, target, second).fetched
    ensures CacheImage(CacheImage(files, target, first).files, target, second).files ==
      CacheImage(files, target, first).files
    ensures CacheImage(CacheImage(files, target, first).files, target, second).status == Done
  {
  }
}

=== FILE: decimal.dfy ===
/** Decimal text for integers: Python's `str(n)` for the size line of a
    programming request, and CPython 2's `int(s)` for the port of a subagent
    address. */
module Decimal {
  import opened Wrappers

  predicate IsDigit(c: char)
  {
    '0' <= c <= '9'
  }

  predicate AllDigits(s: string)
  {
    forall k :: 0 <= k < |s| ==> IsDigit(s[k])
  }

  function DigitChar(d: nat): (c: char)
    requires d < 10
    ensures IsDigit(c)
  {
    ('0' as int + d) as char
  }

  function DigitValue(c: char): (d: nat)
    requires IsDigit(c)
    ensures d < 10 && DigitChar(d) == c
  {
    c as int - '0' as int
  }

  /** Python's `str(n)` for a non-negative integer: decimal digits, most
      significant first, with no leading zero. */
  function NatToString(n: nat): (s: string)
    ensures |s| > 0 && AllDigits(s)
    ensures |s| > 1 ==> s[0] != '0'
    decreases n
  {
    if n < 10 then [DigitChar(n)] else NatToString(n / 10) + [DigitChar(n % 10)]
  }

  /** The value of a string of decimal digits (zero for the empty string). */
  function DigitsValue(s: string): nat
    requires AllDigits(s)
    decreases |s|
  {
    if |s| == 0 then 0 else DigitsValue(s[..|s| - 1]) * 10 + DigitValue(s[|s| - 1])
  }

  /** Strict decimal: a non-empty run of digits and nothing else. */
  function ParseNat(s: string): Option<nat>
  {
    if |s| > 0 && AllDigits(s) then Some(DigitsValue(s)) else None
  }

  /** Reading back `str(n)` gives `n`. */
  lemma {:induction false} ParseNatToString(n: nat)
    ensures ParseNat(NatToString(n)) == Some(n)
    decreases n
  {
    var s := NatToString(n);
    if n >= 10 {
      ParseNatToString(n / 10);
      assert s[..|s| - 1] == NatToString(n / 10);
      assert DigitsValue(s[..|s| - 1]) == n / 10;
      assert DigitValue(s[|s| - 1]) == n % 10;
    } else {
      assert s[..|s| - 1] == [];
      assert DigitsValue(s) == DigitValue(s[0]) == n;
    }
  }

  /** Distinct numbers have distinct decimal text. */
  lemma NatToStringInjective(m: nat, n: nat)
    requires NatToString(m) == NatToString(n)
    ensures m == n
  {
    ParseNatToString(m);
    ParseNatToString(n);
  }

  /** The characters C's `isspace` accepts in the C locale: space, tab, line
      feed, vertical tab, form feed and carriage return. */
  predicate IsSpace(c: char)
  {
    c == ' ' || c == '\t' || c == '\n' || c == 11 as char || c == 12 as char || c == '\r'
  }

  function TrimLeft(s: string): (t: string)
    ensures |t| <= |s| && s[|s| - |t|..] == t
    ensures |t| > 0 ==> !IsSpace(t[0])
    decreases |s|
  {
    if |s| > 0 && IsSpace(s[0]) then TrimLeft(s[1..]) else s
  }

  function TrimRight(s: string): (t: string)
    ensures t <= s
    ensures |t| > 0 ==> !IsSpace(t[|t| - 1])
    decreases |s|
  {
    if |s| > 0 && IsSpace(s[|s| - 1]) then TrimRight(s[..|s| - 1]) else s
  }

  /** CPython 2's `int(s)` for a byte string `s` in base 10: optional white
      space, an optional sign that may itself be followed by white space, one
      or more decimal digits, optional white space. Anything else raises
      `ValueError`, which is `None` here. */
  function ParsePyInt(s: string): Option<int>
  {
    var t := TrimRight(TrimLeft(s));
    if |t| > 0 && (t[0] == '+' || t[0] == '-') then
      match ParseNat(TrimLeft(t[1..]))
      case None => None
      case Some(n) =>
        var v: int := n;
        if t[0] == '-' then Some(-v) else Some(v)
    else
      match ParseNat(t)
      case None => None
      case Some(n) => Some(n)
  }

  /** `int(s)` of a plain run of digits is its decimal value. */
  lemma PyIntOfDigits(s: string)
    requires |s| > 0 && AllDigits(s)
    ensures ParsePyInt(s) == Some(DigitsValue(s) as int)
  {
    TrimLeftKeeps(s);
    TrimRightKeeps(s);
    assert s[0] != '+' && s[0] != '-';
  }

  lemma TrimLeftKeeps(s: string)
    requires |s| > 0 && IsDigit(s[0])
    ensures TrimLeft(s) == s
  {
  }

  lemma TrimRightKeeps(s: string)
    requires |s| > 0 && IsDigit(s[|s| - 1])
    ensures TrimRight(s) == s
  {
  }

  /** `int(str(n)) == n` for a non-negative `n`. */
  lemma PyIntOfDecimal(n: nat)
    ensures ParsePyInt(NatToString(n)) == Some(n as int)
  {
    ParseNatToString(n);
    PyIntOfDigits(NatToString(n));
  }
}

=== FILE: protocol.dfy ===
/** The region wire-protocol client, `pr_virt_tcp`: one TCP exchange with a
    subagent that programs (`PRG`) or releases (`REL`) an FPGA region.

    Socket effects are not executed here. A `Peer` value says how the other
    side behaves: whether the connection is accepted, which `send` call (if
    any) times out or fails, and what the single `recv(512)` sees. The client
    is then a pure function from its arguments and the peer to the events it
    causes and the outcome it returns or the exception it raises. */
module Protocol {
  import opened Wrappers
  import opened Text
  import opened Decimal

  /** Bytes asked of each `read` of the bitstream file. */
  const ChunkSize: nat := 1024
  /** Bytes asked of the single `recv` of the reply. */
  const ReplyLimit: nat := 512
  /** The largest port the socket layer accepts in a connect address. */
  const PortLimit: int := 65535

  const SocketTimeoutMessage: string := "socket timeout"
  const NoResponseMessage: string := "not receive response before closing connection"
  const BadFormatMessage: string := "response message is too long or in incorrect format"

  /** The `result` half of an outcome: the integer sentinel `-1` the client
      uses for local failures, or the first field of the subagent's reply.
      A reply whose first field is the text "-1" is a `Token`, not the
      sentinel. */
  datatype Code = Sentinel | Token(text: string)

  /** The `(result, message)` pair the client returns. */
  datatype Outcome = Outcome(result: Code, message: string)

  /** The only outcome the lifecycle controller accepts. */
  const Acknowledged: Outcome := Outcome(Token("ACK"), "SUCCESS")

  function MinNat(a: nat, b: nat): nat
  {
    if a <= b then a else b
  }

  function Line(s: string): string
  {
    s + CRLF
  }

  // ---------------------------------------------------------------------------
  // The request frame
  // ---------------------------------------------------------------------------

  /** `read(1024)` on the bitstream file positioned at `pos`: the next bytes,
      at most 1024 of them, and the empty string at end of file. */
  function ReadChunk(file: string, pos: nat): string
    requires pos <= |file|
  {
    file[pos..MinNat(pos + ChunkSize, |file|)]
  }

  /** The payload writes of a programming request, one per non-empty read.
      Together they are exactly the file; `ChunkBounds` gives their sizes. */
  function Chunks(file: string): (chunks: seq<string>)
    ensures Concat(chunks) == file
    decreases |file|
  {
    if |file| == 0 then []
    else
      var chunk := ReadChunk(file, 0);
      var chunks := [chunk] + Chunks(file[|chunk|..]);
      assert chunks[1..] == Chunks(file[|chunk|..]);
      assert file == chunk + file[|chunk|..];
      chunks
  }

  /** Each payload write is non-empty and at most 1024 bytes, and all but the
      last are full. */
  lemma {:induction false} ChunkBounds(file: string)
    ensures forall k :: 0 <= k < |Chunks(file)| ==> 0 < |Chunks(file)[k]| <= ChunkSize
    ensures forall k :: 0 <= k < |Chunks(file)| - 1 ==> |Chunks(file)[k]| == ChunkSize
    decreases |file|
  {
    if |file| > 0 {
      var chunk := ReadChunk(file, 0);
      var rest := file[|chunk|..];
      ChunkBounds(rest);
      assert Chunks(file) == [chunk] + Chunks(rest);
      if |Chunks(rest)| > 0 {
        assert |file| > ChunkSize;
      }
    }
  }

  /** Reading at `pos` and continuing after the bytes read gives the chunks
      of the rest of the file. */
  lemma ChunksStep(file: string, pos: nat)
    requires pos < |file|
    ensures ReadChunk(file, pos) != ""
    ensures Chunks(file[pos..]) == [ReadChunk(file, pos)] + Chunks(file[pos + |ReadChunk(file, pos)|..])
  {
    var data := ReadChunk(file, pos);
    assert ReadChunk(file[pos..], 0) == data;
    assert file[pos..][|data|..] == file[pos + |data|..];
  }

  /** The file is streamed as the source does it: read 1024 bytes, and while
      the read is not empty, send it and read again. The loop sends the same
      chunks as `Chunks`, so what reaches the socket is the file itself. */
  method StreamFile(file: string) returns (sent: seq<string>)
    ensures sent == Chunks(file)
    ensures Concat(sent) == file
    ensures forall k :: 0 <= k < |sent| ==> 0 < |sent[k]| <= ChunkSize
  {
    sent := [];
    var pos := 0;
    var data := ReadChunk(file, pos);
    assert file[pos..] == file;
    while data != ""
      invariant pos <= |file|
      invariant data == ReadChunk(file, pos)
      invariant sent + Chunks(file[pos..]) == Chunks(file)
      decreases |file| - pos
    {
      StreamStep(file, pos, sent);
      sent := sent + [data];
      pos := pos + |data|;
      data := ReadChunk(file, pos);
    }
    EndOfFile(file, pos);
    assert sent + [] == sent;
    ChunkBounds(file);
  }

  /** Sending one non-empty read keeps the loop's account of what is left. */
  lemma StreamStep(file: string, pos: nat, sent: seq<string>)
    requires pos <= |file| && ReadChunk(file, pos) != ""
    requires sent + Chunks(file[pos..]) == Chunks(file)
    ensures pos + |ReadChunk(file, pos)| <= |file|
    ensures (sent + [ReadChunk(file, pos)]) + Chunks(file[pos + |ReadChunk(file, pos)|..]) == Chunks(file)
  {
    var data := ReadChunk(file, pos);
    var rest := Chunks(file[pos + |data|..]);
    ChunksStep(file, pos);
    AppendAssoc(sent, data, rest);
  }

  lemma AppendAssoc(front: seq<string>, piece: string, back: seq<string>)
    ensures (front + [piece]) + back == front + ([piece] + back)
  {
  }

  /** An empty read means the end of the file, where no chunks remain. */
  lemma EndOfFile(file: string, pos: nat)
    requires pos <= |file| && ReadChunk(file, pos) == ""
    ensures Chunks(file[pos..]) == []
  {
    assert pos == |file|;
  }

  /** The strings passed to successive `send` calls for one request: the
      command line, then for `PRG` the decimal file size, the MAC address and
      the file chunks, for `REL` the MAC address, and for any other command
      nothing more. */
  function RequestSegments(cmd: string, mac: string, file: string): seq<string>
  {
    if cmd == "PRG" then [Line(cmd), Line(NatToString(|file|)), Line(mac)] + Chunks(file)
    else if cmd == "REL" then [Line(cmd), Line(mac)]
    else [Line(cmd)]
  }

  /** Everything the client writes for one request, in order. */
  function Frame(cmd: string, mac: string, file: string): string
  {
    Concat(RequestSegments(cmd, mac, file))
  }

  /** The frame byte for byte: a programming request carries the size line,
      the MAC line and the raw file with no trailer; a release carries only
      the MAC line; any other command only its own line. */
  lemma FrameLayout(cmd: string, mac: string, file: string)
    ensures cmd == "PRG" ==>
      Frame(cmd, mac, file) == cmd + CRLF + NatToString(|file|) + CRLF + mac + CRLF + file
    ensures cmd == "REL" ==> Frame(cmd, mac, file) == cmd + CRLF + mac + CRLF
    ensures cmd != "PRG" && cmd != "REL" ==> Frame(cmd, mac, file) == cmd + CRLF
  {
    if cmd == "PRG" {
      ProgramLayout(mac, file);
    } else if cmd == "REL" {
      ConcatCons(Line(cmd), [Line(mac)]);
      ConcatCons(Line(mac), []);
      assert [Line(cmd)] + [Line(mac)] == [Line(cmd), Line(mac)];
      assert [Line(mac)] + [] == [Line(mac)];
    } else {
      ConcatCons(Line(cmd), []);
      assert [Line(cmd)] + [] == [Line(cmd)];
    }
  }

  lemma ProgramLayout(mac: string, file: string)
    ensures Frame("PRG", mac, file) == "PRG" + CRLF + NatToString(|file|) + CRLF + mac + CRLF + file
  {
    ProgramSegments(mac, file);
    ThreeLines("PRG", NatToString(|file|), mac, file);
  }

  lemma ProgramSegments(mac: string, file: string)
    ensures Frame("PRG", mac, file) == Line("PRG") + Line(NatToString(|file|)) + Line(mac) + file
  {
    ConcatThree(Line("PRG"), Line(NatToString(|file|)), Line(mac), Chunks(file));
  }

  /** Three CRLF-terminated lines, kept apart from the frame so that the
      solver regroups the concatenation without unfolding `Chunks`. */
  lemma ThreeLines(a: string, b: string, c: string, rest: string)
    ensures Line(a) + Line(b) + Line(c) + rest == a + CRLF + b + CRLF + c + CRLF + rest
  {
  }

  // ---------------------------------------------------------------------------
  // The receiving side: the frame is self-delimiting
  // ---------------------------------------------------------------------------

  /** What a request asks of the subagent. */
  datatype Request = Program(mac: string, image: string) | Release(mac: string) | Bare(cmd: string)

  /** The request the client means by its arguments. */
  function RequestOf(cmd: string, mac: string, file: string): Request
  {
    if cmd == "PRG" then Program(mac, file)
    else if cmd == "REL" then Release(mac)
    else Bare(cmd)
  }

  /** The text before the first CRLF and the text after it. */
  function TakeLine(s: string): Option<(string, string)>
  {
    var fields := Split(s, CRLF);
    if |fields| == 1 then None else Some((fields[0], Join(fields[1..], CRLF)))
  }

  lemma TakeLineOf(line: string, rest: string)
    requires !Contains(line, CRLF)
    ensures TakeLine(line + CRLF + rest) == Some((line, rest))
  {
    SeparatorsUnambiguous();
    SplitCons(line, CRLF, rest);
    var fields := Split(line + CRLF + rest, CRLF);
    assert fields[1..] == Split(rest, CRLF);
  }

  /** A receiver for the frame: read the command line; for `PRG` read the
      size line and the MAC line and then exactly that many payload bytes;
      for `REL` read the MAC line; nothing may follow. */
  function ParseRequest(frame: string): Option<Request>
  {
    match TakeLine(frame)
    case None => None
    case Some((cmd, rest)) =>
      if cmd == "PRG" then ParseProgram(rest)
      else if cmd == "REL" then ParseRelease(rest)
      else if rest == "" then Some(Bare(cmd))
      else None
  }

  /** After `PRG`: the size line, the MAC line, then exactly `size` bytes. */
  function ParseProgram(rest: string): Option<Request>
  {
    match TakeLine(rest)
    case None => None
    case Some((size, rest')) =>
      match TakeLine(rest')
      case None => None
      case Some((mac, payload)) =>
        match ParseNat(size)
        case None => None
        case Some(n) => if |payload| == n then Some(Program(mac, payload)) else None
  }

  /** After `REL`: the MAC line and nothing else. */
  function ParseRelease(rest: string): Option<Request>
  {
    match TakeLine(rest)
    case None => None
    case Some((mac, tail)) => if tail == "" then Some(Release(mac)) else None
  }

  lemma DigitsHaveNoCRLF(s: string)
    requires AllDigits(s)
    ensures !Contains(s, CRLF)
  {
    AvoidsFirstChar(s, CRLF);
  }

  /** The frame carries enough to recover the request: the payload length
      equals the size line, so the receiver needs no trailer to find the end
      of the bitstream. Command and MAC must not themselves contain CRLF. */
  lemma {:induction false} FrameRoundTrip(cmd: string, mac: string, file: string)
    requires !Contains(cmd, CRLF) && !Contains(mac, CRLF)
    ensures ParseRequest(Frame(cmd, mac, file)) == Some(RequestOf(cmd, mac, file))
  {
    FrameLayout(cmd, mac, file);
    if cmd == "PRG" {
      var size := NatToString(|file|);
      Regroup(cmd, size, mac, file);
      TakeLineOf(cmd, size + CRLF + (mac + CRLF + file));
      ProgramPayload(mac, file);
    } else if cmd == "REL" {
      assert cmd + CRLF + mac + CRLF == cmd + CRLF + (mac + CRLF + "");
      TakeLineOf(cmd, mac + CRLF + "");
      TakeLineOf(mac, "");
    } else {
      assert cmd + CRLF == cmd + CRLF + "";
      TakeLineOf(cmd, "");
    }
  }

  /** The same regrouping, stated apart from `Frame` for the same reason. */
  lemma Regroup(a: string, b: string, c: string, rest: string)
    ensures a + CRLF + b + CRLF + c + CRLF + rest == a + CRLF + (b + CRLF + (c + CRLF + rest))
  {
  }

  /** The receiver reads the size line and the MAC line and takes exactly the
      announced number of bytes, which is the whole file. */
  lemma ProgramPayload(mac: string, file: string)
    requires !Contains(mac, CRLF)
    ensures ParseProgram(NatToString(|file|) + CRLF + (mac + CRLF + file)) == Some(Program(mac, file))
  {
    var size := NatToString(|file|);
    DigitsHaveNoCRLF(size);
    ParseNatToString(|file|);
    TakeLineOf(size, mac + CRLF + file);
    TakeLineOf(mac, file);
  }

  // ---------------------------------------------------------------------------
  // The reply
  // ---------------------------------------------------------------------------

  /** The client's reading of the reply bytes: empty means the peer closed
      without answering; otherwise the reply is split on CRLF and must give
      exactly three fields, of which the first two are the outcome and the
      third is ignored. */
  function Classify(response: string): Outcome
  {
    if response == "" then Outcome(Sentinel, NoResponseMessage)
    else
      var fields := Split(response, CRLF);
      if |fields| != 3 then Outcome(Sentinel, BadFormatMessage)
      else Outcome(Token(fields[0]), fields[1])
  }

  /** A reply of the form `result CRLF message CRLF trailer`, with no CRLF
      inside the three parts, yields `(result, message)` whatever the trailer. */
  lemma {:induction false} ClassifyReply(result: string, message: string, trailer: string)
    requires !Contains(result, CRLF) && !Contains(message, CRLF) && !Contains(trailer, CRLF)
    ensures Classify(result + CRLF + message + CRLF + trailer) == Outcome(Token(result), message)
  {
    SplitThree(result, message, trailer);
  }

  lemma SplitThree(a: string, m: string, t: string)
    requires !Contains(a, CRLF) && !Contains(m, CRLF) && !Contains(t, CRLF)
    ensures Split(a + CRLF + m + CRLF + t, CRLF) == [a, m, t]
  {
    SeparatorsUnambiguous();
    assert a + CRLF + m + CRLF + t == a + CRLF + (m + CRLF + t);
    SplitCons(a, CRLF, m + CRLF + t);
    SplitCons(m, CRLF, t);
    SplitWithoutSeparator(t, CRLF);
  }

  /** Conversely, a reply token comes only from a reply of exactly that form. */
  lemma {:induction false} ClassifyToken(response: string)
    requires Classify(response).result.Token?
    ensures !Contains(Classify(response).result.text, CRLF)
    ensures !Contains(Classify(response).message, CRLF)
    ensures exists trailer ::
      && !Contains(trailer, CRLF)
      && response == Classify(response).result.text + CRLF + Classify(response).message + CRLF + trailer
  {
    var fields := Split(response, CRLF);
    assert |fields| == 3;
    var trailer := fields[2];
    assert fields[1..][1..] == [trailer];
    assert Join(fields[1..], CRLF) == fields[1] + CRLF + trailer;
    assert !Contains(trailer, CRLF);
  }

  /** The sentinel outcomes of a reply: an empty reply and only an empty reply
      is reported as "no response"; every other failing reply is reported as
      a format error; a reply never reads as a timeout. */
  lemma ClassifySentinel(response: string)
    requires Classify(response).result.Sentinel?
    ensures Classify(response).message == NoResponseMessage <==> response == ""
    ensures response != "" ==> Classify(response).message == BadFormatMessage
    ensures Classify(response).message != SocketTimeoutMessage
  {
  }

  /** `ACK CRLF SUCCESS CRLF` reads as success, and so does the same reply
      followed by any bytes without a carriage return. */
  lemma AcknowledgementWithTrailer(trailer: string)
    requires forall k :: 0 <= k < |trailer| ==> trailer[k] != '\r'
    ensures Classify("ACK\r\nSUCCESS\r\n" + trailer) == Acknowledged
  {
    AvoidsFirstChar("ACK", CRLF);
    AvoidsFirstChar("SUCCESS", CRLF);
    AvoidsFirstChar(trailer, CRLF);
    ClassifyReply("ACK", "SUCCESS", trailer);
    assert "ACK" + CRLF + "SUCCESS" + CRLF + trailer == "ACK\r\nSUCCESS\r\n" + trailer;
  }

  // ---------------------------------------------------------------------------
  // One exchange
  // ---------------------------------------------------------------------------

  /** Which `send` call, counted from zero, raises `socket.timeout` or another
      socket error; a fault whose index is past the last call never happens. */
  datatype SendFault = NoFault | TimeoutAt(index: nat) | ErrorAt(index: nat)

  /** What the single `recv(512)` sees: the bytes the subagent wrote before
      the read, a timeout, or another socket error. */
  datatype Reply = Available(bytes: string) | ReplyTimeout | ReplyError

  /** The behaviour of the network and of the subagent for one exchange. */
  datatype Peer = Peer(accepts: bool, sendFault: SendFault, reply: Reply)

  /** What the client does on the socket. */
  datatype Event = Connect(host: string, port: int) | Send(data: string) | Receive

  /** What the client raises: `IndexError` for an address without a colon
      (raised before the guarded block), the `TCP CONNETION DIED` error for a
      bad port or a refused connection, and uncaught non-timeout socket
      errors during `send` or `recv`. */
  datatype ClientError = AddressIndexError | ConnectionDied | SendFailed | ReceiveFailed

  datatype ClientResult = Returned(outcome: Outcome) | Raised(error: ClientError)

  datatype ClientRun = ClientRun(trace: seq<Event>, result: ClientResult)

  /** The `(host, port)` pair the client connects to: the address split on
      `:`, the first component as host and the second read by `int()`.
      Further components are ignored. A port `int()` rejects, or one outside
      what a socket address can hold, ends in `TCP CONNETION DIED`. */
  function Endpoint(address: string): (r: Result<(string, int), ClientError>)
    ensures r == Failure(AddressIndexError) <==> !Contains(address, ":")
    ensures r.Failure? ==> r.error in {AddressIndexError, ConnectionDied}
    ensures r.Success? ==>
      && !Contains(r.value.0, ":")
      && 0 <= r.value.1 <= PortLimit
      && |r.value.0| < |address|
      && address[..|r.value.0| + 1] == r.value.0 + ":"
  {
    var parts := Split(address, ":");
    SplitSingle(address, ":");
    if |parts| < 2 then Failure(AddressIndexError)
    else
      assert Join(parts, ":") == parts[0] + ":" + Join(parts[1..], ":");
      match ParsePyInt(parts[1])
      case None => Failure(ConnectionDied)
      case Some(port) =>
        if 0 <= port <= PortLimit then Success((parts[0], port)) else Failure(ConnectionDied)
  }

  /** An address whose second `:`-separated component is `port` names the
      host before the first colon and the port `int()` reads from `port`,
      when that is a valid port number; further components are ignored. */
  lemma EndpointOf(host: string, port: string, tail: string)
    requires !Contains(host, ":") && !Contains(port, ":")
    requires tail == "" || tail[0] == ':'
    requires ParsePyInt(port).Some? && 0 <= ParsePyInt(port).value <= PortLimit
    ensures Endpoint(host + ":" + port + tail) == Success((host, ParsePyInt(port).value))
  {
    AddressParts(host, port, tail);
  }

  /** A second component that `int()` rejects, or one outside 0..65535, ends
      in `TCP CONNETION DIED`, never in `IndexError`. */
  lemma EndpointRejectsPort(host: string, port: string, tail: string)
    requires !Contains(host, ":") && !Contains(port, ":")
    requires tail == "" || tail[0] == ':'
    requires ParsePyInt(port).None? || ParsePyInt(port).value < 0 || ParsePyInt(port).value > PortLimit
    ensures Endpoint(host + ":" + port + tail) == Failure(ConnectionDied)
  {
    AddressParts(host, port, tail);
  }

  /** The canonical spelling `host:str(port)` names exactly that port. */
  lemma EndpointOfDecimal(host: string, port: nat, tail: string)
    requires !Contains(host, ":") && port <= PortLimit
    requires tail == "" || tail[0] == ':'
    ensures Endpoint(host + ":" + NatToString(port) + tail) == Success((host, port as int))
  {
    SeparatorsUnambiguous();
    AvoidsFirstChar(NatToString(port), ":");
    PyIntOfDecimal(port);
    EndpointOf(host, NatToString(port), tail);
  }

  /** Splitting `host:port tail` on `:` yields the host, then the port text. */
  lemma {:induction false} AddressParts(host: string, port: string, tail: string)
    requires !Contains(host, ":") && !Contains(port, ":")
    requires tail == "" || tail[0] == ':'
    ensures |Split(host + ":" + port + tail, ":")| >= 2
    ensures Split(host + ":" + port + tail, ":")[0] == host
    ensures Split(host + ":" + port + tail, ":")[1] == port
  {
    SeparatorsUnambiguous();
    assert host + ":" + port + tail == host + ":" + (port + tail);
    SplitCons(host, ":", port + tail);
    if tail == "" {
      assert port + tail == port;
      SplitWithoutSeparator(port, ":");
    } else {
      assert port + tail == port + ":" + tail[1..];
      SplitCons(port, ":", tail[1..]);
    }
  }

  /** How many of `count` send calls complete before the fault. */
  function Completed(count: nat, fault: SendFault): (n: nat)
    ensures n <= count
  {
    match fault
    case NoFault => count
    case TimeoutAt(k) => MinNat(k, count)
    case ErrorAt(k) => MinNat(k, count)
  }

  function Sends(pieces: seq<string>): (events: seq<Event>)
    ensures |events| == |pieces|
    ensures forall k :: 0 <= k < |pieces| ==> events[k] == Send(pieces[k])
  {
    seq(|pieces|, k requires 0 <= k < |pieces| => Send(pieces[k]))
  }

  /** The bytes a trace puts on the wire. */
  function WireBytes(trace: seq<Event>): string
    decreases |trace|
  {
    if |trace| == 0 then ""
    else (if trace[0].Send? then trace[0].data else "") + WireBytes(trace[1..])
  }

  lemma {:induction false} WireBytesAppend(a: seq<Event>, b: seq<Event>)
    ensures WireBytes(a + b) == WireBytes(a) + WireBytes(b)
    decreases |a|
  {
    if |a| == 0 {
      assert a + b == b;
    } else {
      assert (a + b)[1..] == a[1..] + b;
      WireBytesAppend(a[1..], b);
    }
  }

  lemma {:induction false} WireBytesOfSends(pieces: seq<string>)
    ensures WireBytes(Sends(pieces)) == Concat(pieces)
    decreases |pieces|
  {
    if |pieces| > 0 {
      assert Sends(pieces)[1..] == Sends(pieces[1..]);
      WireBytesOfSends(pieces[1..]);
    }
  }

  /** The single read of the reply. Only a non-timeout socket error raises. */
  function AwaitReply(reply: Reply): ClientResult
  {
    match reply
    case Available(bytes) => Returned(Classify(bytes[..MinNat(ReplyLimit, |bytes|)]))
    case ReplyTimeout => Returned(Outcome(Sentinel, SocketTimeoutMessage))
    case ReplyError => Raised(ReceiveFailed)
  }

  /** `pr_virt_tcp(cmd, mac_address, subagent_address, dir_path)` where `file`
      is the content of `dir_path` (ignored unless `cmd` is `PRG`). */
  function Exchange(cmd: string, mac: string, address: string, file: string, peer: Peer): ClientRun
  {
    match Endpoint(address)
    case Failure(e) => ClientRun([], Raised(e))
    case Success(endpoint) => Session(cmd, mac, endpoint.0, endpoint.1, file, peer)
  }

  /** Everything after the address is split: connect, one `send` per segment
      until one fails, and the read. Only a timeout is caught around the
      writes. */
  function Session(cmd: string, mac: string, host: string, port: int, file: string, peer: Peer): ClientRun
  {
    var connection := [Connect(host, port)];
    if !peer.accepts then ClientRun(connection, Raised(ConnectionDied))
    else
      var segments := RequestSegments(cmd, mac, file);
      var n := Completed(|segments|, peer.sendFault);
      var sent := connection + Sends(segments[..n]);
      if n == |segments| then ClientRun(sent + [Receive], AwaitReply(peer.reply))
      else if peer.sendFault.TimeoutAt? then ClientRun(sent, Returned(Outcome(Sentinel, SocketTimeoutMessage)))
      else ClientRun(sent, Raised(SendFailed))
  }

  /** The exchange is connected when the address is usable and the peer
      accepts; only then is anything sent. */
  predicate Connected(address: string, peer: Peer)
  {
    Endpoint(address).Success? && peer.accepts
  }

  /** The read is the last event, it happens once, and the events before it
      wrote exactly `frame`. */
  predicate ReadLast(trace: seq<Event>, frame: string)
  {
    && |trace| > 0
    && trace[|trace| - 1] == Receive
    && Receive !in trace[..|trace| - 1]
    && WireBytes(trace[..|trace| - 1]) == frame
  }

  /** The bytes of the connection followed by the first `n` segments are the
      first `n` segments. */
  lemma SentBytes(host: string, port: int, segments: seq<string>, n: nat)
    requires n <= |segments|
    ensures WireBytes([Connect(host, port)] + Sends(segments[..n])) == Concat(segments[..n])
  {
    WireBytesAppend([Connect(host, port)], Sends(segments[..n]));
    WireBytesOfSends(segments[..n]);
    assert WireBytes([Connect(host, port)]) == "";
  }

  /** The wire facts of one session; see `ExchangeWire`. */
  lemma SessionWire(cmd: string, mac: string, host: string, port: int, file: string, peer: Peer)
    ensures WireBytes(Session(cmd, mac, host, port, file, peer).trace) <= Frame(cmd, mac, file)
    ensures Receive in Session(cmd, mac, host, port, file, peer).trace ==>
      WireBytes(Session(cmd, mac, host, port, file, peer).trace) == Frame(cmd, mac, file)
    ensures (Session(cmd, mac, host, port, file, peer).result.Returned? &&
             Session(cmd, mac, host, port, file, peer).result.outcome.result.Token?) ==>
      Receive in Session(cmd, mac, host, port, file, peer).trace
    ensures WireBytes(Session(cmd, mac, host, port, file, peer).trace) != "" ==> peer.accepts
    ensures Receive in Session(cmd, mac, host, port, file, peer).trace ==>
      ReadLast(Session(cmd, mac, host, port, file, peer).trace, Frame(cmd, mac, file))
  {
    var connection := [Connect(host, port)];
    if peer.accepts {
      var segments := RequestSegments(cmd, mac, file);
      var n := Completed(|segments|, peer.sendFault);
      var sent := connection + Sends(segments[..n]);
      SentBytes(host, port, segments, n);
      ConcatPrefix(segments, n);
      assert Receive !in sent;
      if n == |segments| {
        WireBytesAppend(sent, [Receive]);
        assert WireBytes([Receive]) == "";
        assert segments[..n] == segments;
        assert (sent + [Receive])[..|sent|] == sent;
      } else {
        assert Receive !in sent;
      }
    } else {
      assert WireBytes(connection) == "";
    }
  }

  /** What reaches the wire is always a prefix of the request frame, and the
      reply is read only after the whole frame has been written, as the last
      event. A reply token
      is only ever the product of a read. */
  lemma ExchangeWire(cmd: string, mac: string, address: string, file: string, peer: Peer)
    ensures WireBytes(Exchange(cmd, mac, address, file, peer).trace) <= Frame(cmd, mac, file)
    ensures Receive in Exchange(cmd, mac, address, file, peer).trace ==>
      WireBytes(Exchange(cmd, mac, address, file, peer).trace) == Frame(cmd, mac, file)
    ensures (Exchange(cmd, mac, address, file, peer).result.Returned? &&
             Exchange(cmd, mac, address, file, peer).result.outcome.result.Token?) ==>
      Receive in Exchange(cmd, mac, address, file, peer).trace
    ensures WireBytes(Exchange(cmd, mac, address, file, peer).trace) != "" ==> Connected(address, peer)
    ensures Receive in Exchange(cmd, mac, address, file, peer).trace ==>
      ReadLast(Exchange(cmd, mac, address, file, peer).trace, Frame(cmd, mac, file))
  {
    match Endpoint(address)
    case Failure(_) =>
    case Success(endpoint) => SessionWire(cmd, mac, endpoint.0, endpoint.1, file, peer);
  }

  /** The socket operations go to the endpoint named by the address: the first
      event of an exchange with `host:str(port)` is the connection to exactly
      that host and port. */
  lemma ExchangeConnects(cmd: string, mac: string, host: string, port: nat, file: string, peer: Peer)
    requires !Contains(host, ":") && port <= PortLimit
    ensures |Exchange(cmd, mac, host + ":" + NatToString(port), file, peer).trace| > 0
    ensures Exchange(cmd, mac, host + ":" + NatToString(port), file, peer).trace[0] == Connect(host, port)
  {
    var address := host + ":" + NatToString(port);
    EndpointOfDecimal(host, port, "");
    assert address + "" == address;
    assert Exchange(cmd, mac, address, file, peer) == Session(cmd, mac, host, port, file, peer);
  }

  /** A timeout during any `send` skips the read and is returned as the
      timeout outcome, after exactly the earlier sends reached the wire. */
  lemma SendTimeoutSkipsReceive(cmd: string, mac: string, address: string, file: string, peer: Peer)
    requires Connected(address, peer)
    requires peer.sendFault.TimeoutAt? && peer.sendFault.index < |RequestSegments(cmd, mac, file)|
    ensures Receive !in Exchange(cmd, mac, address, file, peer).trace
    ensures Exchange(cmd, mac, address, file, peer).result == Returned(Outcome(Sentinel, SocketTimeoutMessage))
    ensures WireBytes(Exchange(cmd, mac, address, file, peer).trace) ==
      Concat(RequestSegments(cmd, mac, file)[..peer.sendFault.index])
  {
    var endpoint := Endpoint(address).value;
    var segments := RequestSegments(cmd, mac, file);
    SentBytes(endpoint.0, endpoint.1, segments, peer.sendFault.index);
    assert Exchange(cmd, mac, address, file, peer) == Session(cmd, mac, endpoint.0, endpoint.1, file, peer);
  }

  /** Only a timeout is caught around the writes: any other socket error on
      the k-th send raises, after exactly the first k segments, and the reply
      is never read. */
  lemma SendErrorRaises(cmd: string, mac: string, address: string, file: string, peer: Peer)
    requires Connected(address, peer)
    requires peer.sendFault.ErrorAt? && peer.sendFault.index < |RequestSegments(cmd, mac, file)|
    ensures Receive !in Exchange(cmd, mac, address, file, peer).trace
    ensures Exchange(cmd, mac, address, file, peer).result == Raised(SendFailed)
    ensures WireBytes(Exchange(cmd, mac, address, file, peer).trace) ==
      Concat(RequestSegments(cmd, mac, file)[..peer.sendFault.index])
  {
    var endpoint := Endpoint(address).value;
    var segments := RequestSegments(cmd, mac, file);
    SentBytes(endpoint.0, endpoint.1, segments, peer.sendFault.index);
    assert Exchange(cmd, mac, address, file, peer) == Session(cmd, mac, endpoint.0, endpoint.1, file, peer);
  }

  /** Once the frame has been written, every problem with the reply (none
      before close, wrong shape, timeout) is returned as an outcome; only a
      non-timeout socket error raises. */
  lemma ReplyProblemsAreReturned(cmd: string, mac: string, address: string, file: string, peer: Peer)
    requires Connected(address, peer)
    requires Completed(|RequestSegments(cmd, mac, file)|, peer.sendFault) == |RequestSegments(cmd, mac, file)|
    ensures Receive in Exchange(cmd, mac, address, file, peer).trace
    ensures Exchange(cmd, mac, address, file, peer).result.Raised? <==> peer.reply == ReplyError
    ensures peer.reply.Available? ==>
      Exchange(cmd, mac, address, file, peer).result ==
        Returned(Classify(peer.reply.bytes[..MinNat(ReplyLimit, |peer.reply.bytes|)]))
    ensures peer.reply == ReplyTimeout ==>
      Exchange(cmd, mac, address, file, peer).result == Returned(Outcome(Sentinel, SocketTimeoutMessage))
  {
  }

  /** A refused connection raises `TCP CONNETION DIED` after the connection
      attempt alone: nothing is written and nothing is read. A read timeout,
      by contrast, is returned (`ReplyProblemsAreReturned`). */
  lemma ExchangeRefused(cmd: string, mac: string, address: string, file: string, peer: Peer)
    requires Endpoint(address).Success? && !peer.accepts
    ensures Exchange(cmd, mac, address, file, peer) ==
      ClientRun([Connect(Endpoint(address).value.0, Endpoint(address).value.1)], Raised(ConnectionDied))
    ensures WireBytes(Exchange(cmd, mac, address, file, peer).trace) == ""
  {
    assert WireBytes([Connect(Endpoint(address).value.0, Endpoint(address).value.1)]) == "";
  }
}

=== FILE: text.dfy ===
/** Python's `str.split(sep)` and its inverse `sep.join(fields)` over character
    strings, together with the facts about them that the wire protocol and the
    address parser rely on. */
module Text {

  /** The line terminator of the region protocol. */
  const CRLF: string := "\r\n"

  /** `sep` occurs in `s` starting at index `i`. */
  predicate OccursAt(s: string, sep: string, i: nat)
  {
    i + |sep| <= |s| && s[i..i + |sep|] == sep
  }

  predicate Contains(s: string, sep: string)
  {
    exists i: nat :: i <= |s| && OccursAt(s, sep, i)
  }

  /** A separator whose first character does not reappear inside it, so that no
      occurrence of it can straddle a field and the separator that follows it.
      Both `":"` and `"\r\n"` qualify. */
  predicate Unambiguous(sep: string)
  {
    |sep| > 0 && forall i :: 1 <= i < |sep| ==> sep[i] != sep[0]
  }

  /** Python's `sep.join(fields)`. */
  function Join(fields: seq<string>, sep: string): string
    decreases |fields|
  {
    if |fields| == 0 then ""
    else if |fields| == 1 then fields[0]
    else fields[0] + sep + Join(fields[1..], sep)
  }

  /** The concatenation of all pieces, `"".join(pieces)`. */
  function Concat(pieces: seq<string>): string
    decreases |pieces|
  {
    if |pieces| == 0 then "" else pieces[0] + Concat(pieces[1..])
  }

  /** Python's `s.split(sep)`: the leftmost occurrence of `sep` ends the first
      field and the scan resumes after it. There is always at least one field,
      the fields joined with `sep` give back `s`, and no field contains `sep`. */
  function Split(s: string, sep: string): (fields: seq<string>)
    requires |sep| > 0
    ensures |fields| > 0
    ensures fields[0] <= s
    ensures Join(fields, sep) == s
    ensures forall k :: 0 <= k < |fields| ==> !Contains(fields[k], sep)
    decreases |s|
  {
    if |s| < |sep| then
      NoRoom(s, sep);
      [s]
    else if s[..|sep|] == sep then
      NoRoom("", sep);
      [""] + Split(s[|sep|..], sep)
    else
      var rest := Split(s[1..], sep);
      HeadFree(s, sep, rest[0]);
      JoinConsHead(s[0], rest, sep);
      assert s == [s[0]] + s[1..];
      [[s[0]] + rest[0]] + rest[1..]
  }

  /** A string shorter than `sep` cannot contain it. */
  lemma NoRoom(s: string, sep: string)
    requires |s| < |sep|
    ensures !Contains(s, sep)
  {
  }

  /** Dropping the first character cannot create an occurrence. */
  lemma TailFree(s: string, sep: string)
    requires |s| > 0 && !Contains(s, sep)
    ensures !Contains(s[1..], sep)
  {
    forall i: nat | i <= |s| - 1 ensures !OccursAt(s[1..], sep, i) {
      if i + |sep| <= |s| - 1 {
        assert s[1..][i..i + |sep|] == s[i + 1..i + 1 + |sep|];
        assert !OccursAt(s, sep, i + 1);
      }
    }
  }

  /** The first field grows by the first character of `s` when `s` does not
      start with `sep`. */
  lemma HeadFree(s: string, sep: string, r0: string)
    requires |sep| > 0 && |s| >= |sep| && s[..|sep|] != sep
    requires r0 <= s[1..] && !Contains(r0, sep)
    ensures [s[0]] + r0 <= s && !Contains([s[0]] + r0, sep)
  {
    var head := [s[0]] + r0;
    forall i: nat | i <= |head| ensures !OccursAt(head, sep, i) {
      if i == 0 {
        if |sep| <= |head| {
          assert head[..|sep|] == s[..|sep|];
        }
      } else if i + |sep| <= |head| {
        assert r0[i - 1..i - 1 + |sep|] == head[i..i + |sep|];
        assert !OccursAt(r0, sep, i - 1);
      }
    }
  }

  lemma JoinConsHead(c: char, rest: seq<string>, sep: string)
    requires |rest| > 0
    ensures Join([[c] + rest[0]] + rest[1..], sep) == [c] + Join(rest, sep)
  {
    var fields := [[c] + rest[0]] + rest[1..];
    assert fields[1..] == rest[1..];
  }

  lemma ConcatAppend(a: seq<string>, b: seq<string>)
    ensures Concat(a + b) == Concat(a) + Concat(b)
    decreases |a|
  {
    if |a| > 0 {
      assert (a + b)[1..] == a[1..] + b;
      ConcatAppend(a[1..], b);
    } else {
      assert a + b == b;
    }
  }

  /** A string without `sep` is a single field. */
  lemma {:induction false} SplitWithoutSeparator(s: string, sep: string)
    requires |sep| > 0 && !Contains(s, sep)
    ensures Split(s, sep) == [s]
    decreases |s|
  {
    if |s| >= |sep| {
      assert !OccursAt(s, sep, 0);
      TailFree(s, sep);
      SplitWithoutSeparator(s[1..], sep);
      assert s == [s[0]] + s[1..];
    }
  }

  /** A `sep`-free field followed by `sep` is split off as the first field. */
  lemma {:induction false} SplitCons(f: string, sep: string, rest: string)
    requires Unambiguous(sep) && !Contains(f, sep)
    ensures Split(f + sep + rest, sep) == [f] + Split(rest, sep)
    decreases |f|
  {
    var s := f + sep + rest;
    if |f| == 0 {
      assert s == sep + rest;
      assert s[..|sep|] == sep;
      assert s[|sep|..] == rest;
    } else {
      NoEarlyOccurrence(f, sep, rest);
      TailFree(f, sep);
      SplitCons(f[1..], sep, rest);
      assert s[1..] == f[1..] + sep + rest;
      assert f == [f[0]] + f[1..];
    }
  }

  /** When `f` is non-empty and free of `sep`, `f + sep + rest` does not start
      with `sep`. */
  lemma NoEarlyOccurrence(f: string, sep: string, rest: string)
    requires Unambiguous(sep) && |f| > 0 && !Contains(f, sep)
    ensures (f + sep + rest)[..|sep|] != sep
  {
    var s := f + sep + rest;
    if |f| >= |sep| {
      assert f[0..|sep|] == s[..|sep|];
      assert !OccursAt(f, sep, 0);
    } else {
      assert s[..|sep|][|f|] == sep[0] != sep[|f|];
    }
  }

  /** Split undoes Join: a non-empty list of `sep`-free fields is recovered
      from its joined form. With the contract of Split this makes the two
      exact inverses. */
  lemma {:induction false} SplitJoin(fields: seq<string>, sep: string)
    requires Unambiguous(sep) && |fields| > 0
    requires forall k :: 0 <= k < |fields| ==> !Contains(fields[k], sep)
    ensures Split(Join(fields, sep), sep) == fields
    decreases |fields|
  {
    if |fields| == 1 {
      SplitWithoutSeparator(fields[0], sep);
    } else {
      SplitJoin(fields[1..], sep);
      SplitCons(fields[0], sep, Join(fields[1..], sep));
      assert fields == [fields[0]] + fields[1..];
    }
  }

  /** Splitting yields a single field exactly when the separator is absent. */
  lemma SplitSingle(s: string, sep: string)
    requires |sep| > 0
    ensures |Split(s, sep)| == 1 <==> !Contains(s, sep)
  {
    if !Contains(s, sep) {
      SplitWithoutSeparator(s, sep);
    }
  }

  /** The two separators used by the region client are unambiguous. */
  lemma SeparatorsUnambiguous()
    ensures Unambiguous(CRLF) && Unambiguous(":")
  {
  }

  /** A string none of whose characters starts `sep` does not contain it. */
  lemma AvoidsFirstChar(s: string, sep: string)
    requires |sep| > 0 && forall k :: 0 <= k < |s| ==> s[k] != sep[0]
    ensures !Contains(s, sep)
  {
    forall i: nat | i <= |s| ensures !OccursAt(s, sep, i) {
      if i + |sep| <= |s| {
        assert s[i..i + |sep|][0] == s[i];
      }
    }
  }

  lemma ConcatCons(x: string, rest: seq<string>)
    ensures Concat([x] + rest) == x + Concat(rest)
  {
    assert ([x] + rest)[1..] == rest;
  }

  lemma ConcatThree(a: string, b: string, c: string, rest: seq<string>)
    ensures Concat([a, b, c] + rest) == a + b + c + Concat(rest)
  {
    assert [a, b, c] + rest == [a] + ([b] + ([c] + rest));
    ConcatCons(a, [b] + ([c] + rest));
    ConcatCons(b, [c] + rest);
    ConcatCons(c, rest);
  }

  /** The pieces before index `n` make up a prefix of the concatenation. */
  lemma ConcatPrefix(pieces: seq<string>, n: nat)
    requires n <= |pieces|
    ensures Concat(pieces[..n]) <= Concat(pieces)
  {
    assert pieces == pieces[..n] + pieces[n..];
    ConcatAppend(pieces[..n], pieces[n..]);
  }
}

=== FILE: wrappers.dfy ===
/** The Option and Result datatypes shared by the other modules. */
module Wrappers {

  /** A value that may be absent, such as the integer `int()` fails to produce. */
  datatype Option<+T> = None | Some(value: T)

  /** A computed value, or the exception raised instead of it. */
  datatype Result<+R, +E> = Success(value: R) | Failure(error: E)
}
